=== FILE: README.md ===
# AI image classifier front end — a Dafny model

This project models the client-side logic of a single-page application. In the application, a
signed-in user uploads an image, sends it to an analysis API, sees the detected objects drawn
as boxes over the image, and chats about the image with a language-model API. Detection, chat
and authentication all run in external services. What the client itself decides is modelled:

- the dashboard state machine: image, analysis, loading, error, chat unlocked, and the chat
  panel mounted under them;
- the chat panel's `handleSend`: a guard, an optimistic user turn, the history sent, and one
  assistant turn for the reply or the fixed apology;
- the "Detected:" summary line;
- the overlay's conversion of 0–1000 boxes to CSS percentages, in exact `real` arithmetic;
- the upload widget: the MIME check, the split of the data URL at its comma, and the
  drag highlight;
- the session provider: mapping auth-state events to a user with a derived display name,
  the error messages of `login` and `signup`, and the `loading` flag;
- the sign-in and registration forms: local validation and the error-code classifiers;
- the signed-out screen's choice of spinner, welcome text or form.

Every network or identity-provider call is a parameter: an `Outcomes.Outcome` that resolved
with a value or rejected with an error. Each handler is one pure function from the state and
that outcome to the next state. A handler that sets a flag before awaiting is split in two:
one function returns the state shown while the call is in flight, and the other applies the
outcome.

Modules, one per source file plus three shared ones:

- `Outcomes`: `Option` and `Outcome`.
- `Strings`: JavaScript's `split`, `join`, `trim` and UTF-16 `length` on strings of Unicode
  scalar values.
- `ApiTypes`: the records of `frontend/types/api.types.ts`.
- `BoundingBoxOverlay`, `ChatInterface`, `ImageUpload`, `Dashboard`, `AuthContext`,
  `LoginPage`, `SignupPage`, `AuthPage`.

Behaviour of the code worth knowing:

- The image payload is `split(',')[1]`: the text between the first and the second comma of
  the data URL, or `undefined` (`None`) when the URL has no comma.
- `handleAnalyze` checks only that an image is loaded. Only the button's `disabled`
  attribute keeps a second analysis from starting while one is in flight.
- `login` and `signup` rethrow `new Error(msg)`, which has no `code`. Wired to the provider,
  every rejection sets the form's error to its default message, and the specific messages
  are never reached (`LoginPage.ProviderRejectionSetsDefault`,
  `SignupPage.ProviderRejectionSetsDefault`). Each classifier is also modelled on its own, as
  a function of the code.
- Even the default message is never displayed. While `loading` is up, the application's
  root renders its own spinner in place of the whole signed-out screen, and the signed-out
  screen would show a spinner in place of its form too (`AuthPage.CallReplacesForm`). Either
  way the form that sets the error is unmounted during the call, and the form shown
  afterwards starts with no error.
- The password minimum counts UTF-16 code units, like `password.length` does. A character
  outside the Basic Multilingual Plane counts twice.
- The chat panel never imports `apiService`, so every accepted send ends with the apology.
  `ChatInterface.HandleSendAsWritten` models that code; the dashboard uses the corrected
  `ChatInterface.HandleSend`, in which the call is made (see "## Findings").

## Model

| member | source | states |
|---|---|---|
| Strings.Split | frontend/components/dashboard/ImageUpload.tsx:17 | `split` on one character gives at least one segment, none containing the separator, and joining them with it gives the input back |
| Strings.SplitJoin | frontend/components/dashboard/ImageUpload.tsx:17 | splitting inverts joining for comma-free parts |
| Strings.SplitFirstSegment | frontend/components/auth/AuthContext.tsx:49 | the first segment is a prefix of the input: all of it when the separator is absent, else followed by the first separator |
| Strings.Trim | frontend/components/dashboard/ChatInterface.tsx:18 | the trimmed text is the slice of the input left after removing only whitespace from both ends; it starts and ends with non-whitespace and is empty exactly when every character is whitespace |
| Strings.JoinShape | frontend/components/dashboard/ChatInterface.tsx:53 | `join` starts with the first part, ends with the last, and its length is the parts' lengths plus one separator between each neighbouring pair |
| Strings.Utf16Length | frontend/components/auth/SignupPage.tsx:22 | `length` lies between the number of characters and twice it, and equals it exactly when all characters are in the Basic Multilingual Plane |
| ApiTypes.RoleOfName | frontend/types/api.types.ts:17-24 | a wire role reads back to the role it names, and only "user" and "assistant" are roles |
| BoundingBoxOverlay.RectOf | frontend/components/dashboard/BoundingBoxOverlay.tsx:12-16 | left and top are a tenth of xMin and yMin; left+width and top+height are a tenth of xMax and yMax; the label is kept |
| BoundingBoxOverlay.RectRoundTrip | frontend/components/dashboard/BoundingBoxOverlay.tsx:12-16 | the box is recovered from its rectangle's percentages |
| BoundingBoxOverlay.Rects | frontend/components/dashboard/BoundingBoxOverlay.tsx:11-26 | exactly one labelled rectangle per detection, in input order |
| BoundingBoxOverlay.Overlay | frontend/components/dashboard/BoundingBoxOverlay.tsx:6-29 | nothing is rendered for a missing or empty list; otherwise one rectangle per detection whose box and label are those of the detection |
| BoundingBoxOverlay.OverlayIgnoresImageSize | frontend/components/dashboard/BoundingBoxOverlay.tsx:1-6 | the result does not depend on the `imageSize` prop |
| BoundingBoxOverlay.WithinImageIffInScale | frontend/components/dashboard/BoundingBoxOverlay.tsx:12-16 | all percentages lie in [0,100] with left+width and top+height at most 100 exactly when 0 ≤ min ≤ max ≤ 1000 on both axes; nothing is clamped |
| ChatInterface.HistoryOf | frontend/components/dashboard/ChatInterface.tsx:26-29 | the history has one turn per message, in order, with the message's role and one part holding its content |
| ChatInterface.HistoryRoundTrip | frontend/components/dashboard/ChatInterface.tsx:26-29 | the transcript can be read back from the history |
| ChatInterface.TypeInput | frontend/components/dashboard/ChatInterface.tsx:81-89 | the typed text becomes the input unless a reply is awaited, when the box is disabled; the transcript is untouched |
| ChatInterface.TypedTextIsSent | frontend/components/dashboard/ChatInterface.tsx:17-33 | typing a non-blank text into an idle panel and sending appends that text as the user turn and then the reply |
| ChatInterface.BeginSend | frontend/components/dashboard/ChatInterface.tsx:17-31 | blank or whitespace-only input or a pending call changes nothing; otherwise the raw input becomes a user turn, the input clears, loading rises, and the request carries the input captured at call time and the history of the transcript before the new turn |
| ChatInterface.Reply | frontend/components/dashboard/ChatInterface.tsx:33-38 | the assistant turn holds the reply text on success and the fixed apology on failure |
| ChatInterface.FinishSend | frontend/components/dashboard/ChatInterface.tsx:33-41 | exactly one assistant turn is appended after the existing ones, and loading drops |
| ChatInterface.HandleSend | frontend/components/dashboard/ChatInterface.tsx:17-42 | a rejected send changes nothing; an accepted one leaves the old transcript followed by the user turn and one assistant turn, with empty input and loading false |
| ChatInterface.HandleSendAsWritten | frontend/components/dashboard/ChatInterface.tsx:1-42 | as written, with `apiService` never imported, an accepted send always ends with the user turn followed by the apology |
| ChatInterface.AsWrittenAlwaysApologises | frontend/components/dashboard/ChatInterface.tsx:31-38 | sending "hi" to a backend that would answer "Hello" shows the apology as written, and "Hello" once the call can be made |
| ChatInterface.SuccessAppendsReply | frontend/components/dashboard/ChatInterface.tsx:31-33 | with the call reachable, a successful reply becomes the assistant turn, and the code as written differs from that for every reply other than the apology text |
| ChatInterface.SendKeepsTranscript | frontend/components/dashboard/ChatInterface.tsx:20-38 | the user turn is never removed, even when the call fails |
| ChatInterface.Labels | frontend/components/dashboard/ChatInterface.tsx:53 | the labels of the detections, one each, in order |
| ChatInterface.DetectedSummary | frontend/components/dashboard/ChatInterface.tsx:51-55 | the summary is shown exactly when the analysis has at least one detection, and is the labels joined by ", " |
| ChatInterface.SummaryReadsBack | frontend/components/dashboard/ChatInterface.tsx:53 | for comma-free labels, splitting the summary at commas gives back the labels in order, all after the first behind the space of ", " |
| ImageUpload.PayloadOf | frontend/components/dashboard/ImageUpload.tsx:16-17 | a payload exists exactly when the data URL has a comma, and it contains no comma; which text it is, `PayloadFollowsFirstComma` pins down |
| ImageUpload.PayloadFollowsFirstComma | frontend/components/dashboard/ImageUpload.tsx:17 | the data URL starts with a comma-free header, a comma, and the payload, and the payload ends at the second comma or at the end of the URL: it is `split(',')[1]` |
| ImageUpload.DataUrlRoundTrip | frontend/components/dashboard/ImageUpload.tsx:16-22 | for header "," payload with neither containing a comma, the image's data is the payload, and header "," data is the preview |
| ImageUpload.HandleFile | frontend/components/dashboard/ImageUpload.tsx:12-26 | a type not starting with "image/" produces no image, so the callback is not called; otherwise one image with the payload, the declared type verbatim and the whole data URL as preview |
| ImageUpload.HandleChoose | frontend/components/dashboard/ImageUpload.tsx:52 | the picker handles its first file, and nothing when there is none |
| ImageUpload.HandleDragOver | frontend/components/dashboard/ImageUpload.tsx:40 | drag-over raises the highlight |
| ImageUpload.HandleDragLeave | frontend/components/dashboard/ImageUpload.tsx:41 | drag-leave lowers the highlight |
| ImageUpload.HandleDrop | frontend/components/dashboard/ImageUpload.tsx:28-34 | a drop lowers the highlight and handles only the first file; a drop without files selects nothing |
| ImageUpload.DropAgreesWithPicker | frontend/components/dashboard/ImageUpload.tsx:31-32 | dropping and choosing select the same image, and the files after the first play no part |
| Dashboard.OverlayShown | frontend/components/dashboard/Dashboard.tsx:81-95 | the overlay is rendered exactly when an image is loaded (the upload widget is not shown) and there is an analysis |
| Dashboard.ChatShown | frontend/components/dashboard/Dashboard.tsx:131-142 | the chat panel is rendered exactly when an image is loaded and chat is unlocked |
| Dashboard.UploadExcludesImagePanel | frontend/components/dashboard/Dashboard.tsx:81-83 | the upload widget is shown exactly when no image is loaded, and then neither the overlay nor the chat panel is |
| Dashboard.Boxes | frontend/components/dashboard/Dashboard.tsx:91-95 | boxes are drawn only over a loaded image with an analysis that has detections, and the i-th box is the rectangle of the i-th detection |
| Dashboard.Remount | frontend/components/dashboard/Dashboard.tsx:131-141 | the chat panel exists exactly while an image is loaded and chat is unlocked, and it keeps its transcript while it stays shown |
| Dashboard.SelectImage | frontend/components/dashboard/Dashboard.tsx:81-82 | the upload widget, and so this callback, exists only while no image is loaded; a selection loads the image and keeps analysis, loading, error and the chat unlock; a fresh chat panel is mounted exactly when chat was unlocked, so on a settled screen the chat is unchanged too |
| Dashboard.BeginAnalyze | frontend/components/dashboard/Dashboard.tsx:22-29 | without an image nothing happens; otherwise loading rises, the error clears, and the request carries the image's payload and type |
| Dashboard.FinishAnalyze | frontend/components/dashboard/Dashboard.tsx:28-36 | a result replaces the analysis and unlocks chat; a failure sets the connection message and keeps the previous analysis; the image is untouched and loading drops; a chat panel that was shown stays mounted with its transcript, one shown for the first time starts empty, and a hidden one is gone |
| Dashboard.HandleAnalyze | frontend/components/dashboard/Dashboard.tsx:22-37 | the whole analyze handler: a no-op without an image; otherwise the image is kept, loading ends false, a success or a failure applies as above, and the chat panel follows the same rule |
| Dashboard.HandleReset | frontend/components/dashboard/Dashboard.tsx:39-44 | reset shows the upload widget, no overlay and no chat panel; it clears the analysis, the error and the transcript, and leaves loading alone |
| Dashboard.SendChat | frontend/components/dashboard/Dashboard.tsx:131-141 | a chat message reaches the transcript only through a mounted chat panel |
| Dashboard.ApplyKeepsSettled | frontend/components/dashboard/Dashboard.tsx:22-44 | every handler keeps the screen settled: nothing in flight, and chat or an analysis only with an image |
| Dashboard.RunIsSettled | frontend/components/dashboard/Dashboard.tsx:16-20 | every reachable screen is settled, so a transcript exists only while an image is loaded and chat is unlocked |
| Dashboard.TranscriptBoundToImage | frontend/components/dashboard/Dashboard.tsx:81-82 | on a settled screen no event changes the image while keeping a transcript: a transcript never outlives its image |
| Dashboard.TypeChat | frontend/components/dashboard/ChatInterface.tsx:84 | typing reaches the input box only while the chat panel is mounted |
| Dashboard.ConversationUntilReset | frontend/components/dashboard/Dashboard.tsx:22-44 | choosing and analysing an image, typing "hi" and getting "Hello" leaves a two-turn transcript, and a reset discards it |
| Dashboard.ResetDiscardsTranscript | frontend/components/dashboard/Dashboard.tsx:131-141 | reset drops the transcript, and the next analysed image starts a fresh one |
| Dashboard.ReanalysisKeepsTranscript | frontend/components/dashboard/Dashboard.tsx:131-141 | analysing again, whether it succeeds or fails, keeps the open chat panel and its transcript |
| Dashboard.AnalysisSupersedes | frontend/components/dashboard/Dashboard.tsx:30 | a second analysis replaces the first instead of merging with it |
| Dashboard.FailureKeepsPreviousResult | frontend/components/dashboard/Dashboard.tsx:32-33 | a failed analysis keeps the earlier result, overlay and chat on screen, and shows the error |
| AuthContext.DisplayName | frontend/components/auth/AuthContext.tsx:49 | the name has no '@'; it is "User" for a missing or empty email; otherwise it is the prefix of the email before its first '@', or the whole email when there is none |
| AuthContext.UserOf | frontend/components/auth/AuthContext.tsx:45-50 | uid and email are copied and the name is derived from the email |
| AuthContext.OnAuthStateChanged | frontend/components/auth/AuthContext.tsx:44-55 | a signed-in event sets the mapped user, a signed-out event clears it, and loading is false after either |
| AuthContext.CodeOf | frontend/components/auth/AuthContext.tsx:70-82 | the error `login` and `signup` throw is a plain `Error`, which carries no `code` |
| AuthContext.LoginErrorMessage | frontend/components/auth/AuthContext.tsx:69-82 | each of the four known codes has its own message; any other error gives its own message or "Login failed"; the result is never empty |
| AuthContext.SignupErrorMessage | frontend/components/auth/AuthContext.tsx:97-107 | each of the three known codes has its own message; any other error gives its own message or "Signup failed"; the result is never empty |
| AuthContext.KnownCodesAreDistinguished | frontend/components/auth/AuthContext.tsx:69-105 | different known codes never produce the same message |
| AuthContext.Guarded | frontend/components/auth/AuthContext.tsx:61-86 | loading is true while a call is awaited and false once it settles, and the call itself does not change the user |
| AuthContext.Login | frontend/components/auth/AuthContext.tsx:61-86 | login throws exactly when the provider rejects, with the mapped message, and loading is true while in flight and false afterwards |
| AuthContext.Signup | frontend/components/auth/AuthContext.tsx:89-111 | signup throws exactly when the provider rejects, with the mapped message, and loading is true while in flight and false afterwards |
| AuthContext.Logout | frontend/components/auth/AuthContext.tsx:114-123 | logout never throws, and loading is true while in flight and false afterwards |
| AuthContext.Step | frontend/components/auth/AuthContext.tsx:43-123 | every event leaves loading down, and only auth-state events move the user |
| AuthContext.SessionFollowsEvents | frontend/components/auth/AuthContext.tsx:39-123 | after any sequence of events and call outcomes, the user is the one the latest auth-state event reported, and loading is up only before the first event |
| LoginPage.ErrorText | frontend/components/auth/LoginPage.tsx:35-49 | an unknown account and a wrong password share one message; invalid-email and too-many-requests have their own; the default appears exactly when the code is missing or unknown |
| LoginPage.HandleSubmit | frontend/components/auth/LoginPage.tsx:20-53 | a submit while submitting or with an empty field shows the missing-fields message and does not call login; otherwise the error clears and isSubmitting rises before login is called with the fields; afterwards isSubmitting is false and the error is empty on success or the classified message |
| LoginPage.SubmitThroughProvider | frontend/components/auth/LoginPage.tsx:20-53 | wired to the provider's login, the local check is unchanged, and an attempt settles with the form's error empty on success and set to the default message on every rejection |
| LoginPage.ProviderRejectionSetsDefault | frontend/components/auth/LoginPage.tsx:34-49 | wired to the provider's login, every rejection sets the form's error to the default message, because the rethrown error has no code |
| SignupPage.ErrorText | frontend/components/auth/SignupPage.tsx:34-47 | each of the three known codes has its own message; the default appears exactly when the code is missing or unknown |
| SignupPage.Validate | frontend/components/auth/SignupPage.tsx:18-25 | the missing-fields message comes first, then the too-short message for a non-empty password under 6 code units, and the form may be sent exactly when neither applies |
| SignupPage.HandleSubmit | frontend/components/auth/SignupPage.tsx:14-51 | a form failing validation shows that message, leaves isSubmitting unchanged and does not call signup; otherwise isSubmitting rises after validation, signup gets a password of at least 6 code units, and afterwards isSubmitting is false with an empty or classified error |
| SignupPage.ValidationOrder | frontend/components/auth/SignupPage.tsx:18-25 | an empty password gets the missing-fields message, five letters are too short, and six letters are enough |
| SignupPage.SubmitThroughProvider | frontend/components/auth/SignupPage.tsx:14-51 | wired to the provider's signup, validation is unchanged, and an attempt settles with the form's error empty on success and set to the default message on every rejection |
| SignupPage.ProviderRejectionSetsDefault | frontend/components/auth/SignupPage.tsx:33-47 | wired to the provider's signup, every rejection sets the form's error to the default message, because the rethrown error has no code |
| AuthPage.SwitchToSignup | frontend/components/auth/AuthPage.tsx:15 | switching to signup chooses the registration form |
| AuthPage.SwitchToLogin | frontend/components/auth/AuthPage.tsx:18 | switching to login chooses the sign-in form |
| AuthPage.SwitchRoundTrip | frontend/components/auth/AuthPage.tsx:11-18 | switching to signup and back gives the initial view |
| AuthPage.WelcomeText | frontend/components/auth/AuthPage.tsx:30 | the welcome text is the name unless it is missing or empty, and otherwise the email, or nothing when there is none |
| AuthPage.Render | frontend/components/auth/AuthPage.tsx:20-40 | the spinner appears exactly while loading; otherwise the welcome text appears exactly when there is a user; otherwise the sign-in form appears exactly when it was chosen, and the registration form otherwise |
| AuthPage.SignedInWelcomeIsNeverEmpty | frontend/components/auth/AuthPage.tsx:29-31 | a user signed in through the provider always gets a non-empty welcome text |
| AuthPage.CallReplacesForm | frontend/components/auth/AuthPage.tsx:20-26 | while `login` or `signup` is awaited the spinner replaces either form, and a signed-out session shows a form again once either call has settled |
| AuthPage.FirstScreens | frontend/components/auth/AuthPage.tsx:11-36 | the first screen is the spinner, and a first signed-out event shows the sign-in form |

## Left out

- Network calls (`frontend/services/api.ts`) and the identity-provider SDK. They are the
  `Outcome` parameters of the handlers and auth-state events. The HTTP bodies are modelled
  only as the `AnalyzeRequest` and `ChatRequest` records.
- Concurrency. Every handler is atomic from call to settlement, so stale replies after a reset,
  double clicks between renders, and the subscription's unsubscribe are not modelled.
- Console logging in the error paths.
- The application's root (`frontend/app/page.tsx`) is not part of this model. It renders its
  own spinner while `loading` is up and the dashboard when there is a user, so the signed-out
  screen's spinner and welcome branches, modelled in `AuthPage.Render`, are never reached in
  the application. The signed-out screen is unmounted during every auth call, so its choice
  of form resets and a failed sign-up comes back to the sign-in form; that remount is not
  modelled.
- React mounting outside the dashboard. The forms' states are modelled on their own, not
  wired to the signed-out screen's mounting. The error a form sets after a provider
  rejection therefore appears in the model's settled form state, but it is never displayed:
  the form was unmounted for the call (`AuthPage.CallReplacesForm`), and the remounted form
  starts from its initial state.
- `FileReader` and base64 encoding. A `File` carries the data URL the reader would produce. A
  `File` is never null.
- Floating point. The overlay is exact `real` arithmetic, and the formatting of percentages as
  CSS text is not modelled.
- A detection box is modelled as exactly four numbers. A `box` array of another length
  (`undefined`, then `NaN`, in the source) is not modelled.
- JSX markup and styling. The description paragraph, the message bubbles and the chat spinner
  are only rendered and are left out. The auth forms' `onChange` handlers only copy text; the chat box's
  handler is modelled (`ChatInterface.TypeInput`).
- JavaScript strings may hold lone surrogates. Dafny strings cannot, so those inputs are not
  modelled.
- `backend/main.py`, `frontend/firebase/firebase.ts`, `frontend/api/gemini.ts`,
  `frontend/app/layout.tsx`, `frontend/hooks/useAuth.ts`,
  `frontend/types/auth.types.ts` and `frontend/types/index.ts` are not part of this model. They
  hold server-side inference, SDK set-up, routing, markup, or duplicated and unused types.

## Findings

| source | as written | input that shows it | evidently intended | confidence | as-written member | corrected member |
|---|---|---|---|---|---|---|
| frontend/components/dashboard/ChatInterface.tsx:31 | `apiService.chat(...)` is called, but the file's imports (lines 1-5) never bring `apiService` in, so the call throws a `ReferenceError` inside the `try` and the `catch` appends the apology to every accepted send | any non-blank send, e.g. "hi" while the backend would answer "Hello" | the chat request is sent and its reply becomes the assistant turn, as the `try` branch on line 33 says | high, by reading the imports; not executed | ChatInterface.HandleSendAsWritten, ChatInterface.AsWrittenAlwaysApologises | ChatInterface.HandleSend, ChatInterface.SuccessAppendsReply |

=== FILE: api_types.dfy ===
/** The records exchanged with the analysis and chat API (frontend/types/api.types.ts). They
    carry no behaviour of their own. JSON numbers are modelled as exact reals. */
module ApiTypes {
  import opened Outcomes

  /** A detection's `box`, `[xMin, yMin, xMax, yMax]` on the 0–1000 scale. */
  datatype Box = Box(xMin: real, yMin: real, xMax: real, yMax: real)

  datatype Detection = Detection(labelText: string, box: Box)

  /** The `/analyze-objects` response. The response JSON is not validated, so
      `detected_objects` may be absent: `None`. */
  datatype AnalysisResults = AnalysisResults(description: string, detectedObjects: Option<seq<Detection>>)

  /** An accepted image: the base64 payload (`undefined`, hence `None`, when the data URL has no
      comma), the file's declared MIME type, and the whole data URL used as preview. */
  datatype ImageData = ImageData(data: Option<string>, mimeType: string, preview: string)

  datatype Role = User | Assistant

  datatype Message = Message(role: Role, content: string)

  datatype Part = Part(text: string)

  /** One turn of the history sent to `/chat`; its role is plain text on the wire. */
  datatype ChatHistory = ChatHistory(role: string, parts: seq<Part>)

  datatype AnalyzeRequest = AnalyzeRequest(fileData: Option<string>, fileType: string)

  datatype ChatRequest = ChatRequest(fileData: Option<string>, fileType: string, prompt: string, history: seq<ChatHistory>)

  /** The wire spelling of a role. */
  function RoleName(r: Role): string
  {
    match r
    case User => "user"
    case Assistant => "assistant"
  }

  /** Reads a wire role back; any other text is not a role. */
  function RoleOfName(name: string): (r: Option<Role>)
    ensures r.Some? <==> name == "user" || name == "assistant"
    ensures r.Some? ==> RoleName(r.value) == name
  {
    if name == "user" then Some(User)
    else if name == "assistant" then Some(Assistant)
    else None
  }
}

=== FILE: auth_context.dfy ===
/** The session provider (frontend/components/auth/AuthContext.tsx): the signed-in user and the
    `loading` flag, the mapping of the identity provider's auth-state events to a `User`, and
    the `login`, `signup` and `logout` wrappers with their error messages.

    The identity provider is outside the model: its auth-state events and the outcome of each
    sign-in, sign-up and sign-out call are parameters. A provider error's `code` and `message`
    are "" when absent, which the code treats the same way (never equal to a known code, and
    falsy). */
module AuthContext {
  import opened Outcomes
  import opened Strings

  datatype User = User(uid: string, email: Option<string>, name: Option<string>)

  /** The provider's user as an auth-state event delivers it. */
  datatype ProviderUser = ProviderUser(uid: string, email: Option<string>)

  /** What the provider rejects a call with. */
  datatype ProviderError = ProviderError(code: string, message: string)

  /** `new Error(msg)`: a message and no `code`. */
  datatype AuthError = AuthError(message: string)

  /** The `code` property of what `login` and `signup` throw: `new Error(msg)` has none. */
  function CodeOf(thrown: AuthError): (r: Option<string>)
    ensures r.None?
  {
    None
  }

  datatype AuthState = AuthState(user: Option<User>, loading: bool)

  /** Before the first auth-state event the provider is loading and nobody is signed in. */
  const Initial: AuthState := AuthState(None, true)

  const DefaultName: string := "User"

  /** The display name derived from an email: the text before the first '@' (all of it when
      there is none), or "User" when there is no email or it is empty. */
  function DisplayName(email: Option<string>): (name: string)
    ensures '@' !in name
    ensures email.None? || email.value == "" ==> name == DefaultName
    ensures email.Some? && email.value != "" ==> name <= email.value
    ensures email.Some? && email.value != "" && '@' in email.value ==> email.value[|name|] == '@'
    ensures email.Some? && email.value != "" && '@' !in email.value ==> name == email.value
  {
    if email.None? || email.value == "" then DefaultName
    else
      SplitFirstSegment(email.value, '@');
      Split(email.value, '@')[0]
  }

  /** The `User` built from a signed-in provider user: uid and email copied, name derived. */
  function UserOf(u: ProviderUser): (r: User)
    ensures r.uid == u.uid && r.email == u.email
    ensures r.name == Some(DisplayName(u.email))
  {
    User(u.uid, u.email, Some(DisplayName(u.email)))
  }

  /** An auth-state event: a signed-in user becomes the session's user, a sign-out clears it,
      and loading is over either way. */
  function OnAuthStateChanged(s: AuthState, event: Option<ProviderUser>): (r: AuthState)
    ensures !r.loading
    ensures r.user.None? <==> event.None?
    ensures event.Some? ==> r.user == Some(UserOf(event.value))
  {
    AuthState(if event.Some? then Some(UserOf(event.value)) else None, false)
  }

  /** The message `login` rethrows a provider error with: one per known code, otherwise the
      provider's own message, or "Login failed" when it has none. It is never empty. */
  function LoginErrorMessage(e: ProviderError): (msg: string)
    ensures msg != ""
    ensures e.code == "auth/user-not-found" ==> msg == "No account found with this email"
    ensures e.code == "auth/wrong-password" ==> msg == "Incorrect password"
    ensures e.code == "auth/invalid-email" ==> msg == "Invalid email address"
    ensures e.code == "auth/too-many-requests" ==> msg == "Too many attempts, try again later"
    ensures e.code !in LoginCodes ==> msg == (if e.message != "" then e.message else "Login failed")
  {
    if e.code == "auth/user-not-found" then "No account found with this email"
    else if e.code == "auth/wrong-password" then "Incorrect password"
    else if e.code == "auth/invalid-email" then "Invalid email address"
    else if e.code == "auth/too-many-requests" then "Too many attempts, try again later"
    else if e.message != "" then e.message
    else "Login failed"
  }

  const LoginCodes: set<string> :=
    {"auth/user-not-found", "auth/wrong-password", "auth/invalid-email", "auth/too-many-requests"}

  const SignupCodes: set<string> :=
    {"auth/email-already-in-use", "auth/invalid-email", "auth/weak-password"}

  /** The message `signup` rethrows a provider error with: one per known code, otherwise the
      provider's own message, or "Signup failed" when it has none. It is never empty. */
  function SignupErrorMessage(e: ProviderError): (msg: string)
    ensures msg != ""
    ensures e.code == "auth/email-already-in-use" ==> msg == "This email is already registered"
    ensures e.code == "auth/invalid-email" ==> msg == "Invalid email address"
    ensures e.code == "auth/weak-password" ==> msg == "Password must be at least 6 characters"
    ensures e.code !in SignupCodes ==> msg == (if e.message != "" then e.message else "Signup failed")
  {
    if e.code == "auth/email-already-in-use" then "This email is already registered"
    else if e.code == "auth/invalid-email" then "Invalid email address"
    else if e.code == "auth/weak-password" then "Password must be at least 6 characters"
    else if e.message != "" then e.message
    else "Signup failed"
  }

  /** The known codes get their own fixed messages: two provider errors with different known
      codes are never reported alike, whatever their provider messages. */
  lemma KnownCodesAreDistinguished(a: ProviderError, b: ProviderError)
    ensures a.code in LoginCodes && b.code in LoginCodes && a.code != b.code ==>
      LoginErrorMessage(a) != LoginErrorMessage(b)
    ensures a.code in SignupCodes && b.code in SignupCodes && a.code != b.code ==>
      SignupErrorMessage(a) != SignupErrorMessage(b)
  {
  }

  /** A wrapped provider call: the state while it is awaited, the state once it has settled,
      and what it rethrew. */
  datatype Call = Call(inFlight: AuthState, settled: AuthState, thrown: Option<AuthError>)

  /** The discipline shared by `login`, `signup` and `logout`: `loading` is raised for the
      call and lowered in `finally`; the user changes only through auth-state events. */
  function Guarded(s: AuthState, thrown: Option<AuthError>): (c: Call)
    ensures c.inFlight.loading && !c.settled.loading
    ensures c.inFlight.user == s.user && c.settled.user == s.user
    ensures c.thrown == thrown
  {
    Call(s.(loading := true), s.(loading := false), thrown)
  }

  /** `login`: throws exactly when the provider rejects, with the mapped message. */
  function Login(s: AuthState, outcome: Outcome<(), ProviderError>): (c: Call)
    ensures c.inFlight.loading && !c.settled.loading && c.settled.user == s.user
    ensures c.thrown.None? <==> outcome.Ok?
    ensures outcome.Err? ==> c.thrown == Some(AuthError(LoginErrorMessage(outcome.error)))
  {
    Guarded(s, if outcome.Err? then Some(AuthError(LoginErrorMessage(outcome.error))) else None)
  }

  /** `signup`: throws exactly when the provider rejects, with the mapped message. */
  function Signup(s: AuthState, outcome: Outcome<(), ProviderError>): (c: Call)
    ensures c.inFlight.loading && !c.settled.loading && c.settled.user == s.user
    ensures c.thrown.None? <==> outcome.Ok?
    ensures outcome.Err? ==> c.thrown == Some(AuthError(SignupErrorMessage(outcome.error)))
  {
    Guarded(s, if outcome.Err? then Some(AuthError(SignupErrorMessage(outcome.error))) else None)
  }

  /** `logout`: a provider failure is logged and swallowed, so it never throws. */
  function Logout(s: AuthState, outcome: Outcome<(), Fault>): (c: Call)
    ensures c.inFlight.loading && !c.settled.loading && c.settled.user == s.user
    ensures c.thrown.None?
  {
    Guarded(s, None)
  }

  /** What can happen to the session: an auth-state event, or a settled `login`, `signup` or
      `logout` call. */
  datatype AuthEvent =
    | Changed(signedIn: Option<ProviderUser>)
    | LoginCall(login: Outcome<(), ProviderError>)
    | SignupCall(signup: Outcome<(), ProviderError>)
    | LogoutCall(logout: Outcome<(), Fault>)

  /** The session after one event: the user moves only with auth-state events, and every
      event leaves `loading` down. */
  function Step(s: AuthState, e: AuthEvent): (r: AuthState)
    ensures !r.loading
    ensures !e.Changed? ==> r.user == s.user
  {
    match e
    case Changed(u) => OnAuthStateChanged(s, u)
    case LoginCall(o) => Login(s, o).settled
    case SignupCall(o) => Signup(s, o).settled
    case LogoutCall(o) => Logout(s, o).settled
  }

  /** The session after a sequence of events, from the provider's initial state. */
  function Run(events: seq<AuthEvent>): AuthState
  {
    if |events| == 0 then Initial else Step(Run(events[..|events| - 1]), events[|events| - 1])
  }

  /** The user the latest auth-state event reported, `None` before any. */
  function LatestUser(events: seq<AuthEvent>): Option<User>
  {
    if |events| == 0 then None
    else match events[|events| - 1]
      case Changed(u) => if u.Some? then Some(UserOf(u.value)) else None
      case _ => LatestUser(events[..|events| - 1])
  }

  /** Whatever the calls and their outcomes, the session's user is the one the latest
      auth-state event reported, and `loading` is up only before anything has happened. */
  lemma {:induction false} SessionFollowsEvents(events: seq<AuthEvent>)
    ensures Run(events).user == LatestUser(events)
    ensures Run(events).loading <==> |events| == 0
  {
    if |events| > 0 {
      SessionFollowsEvents(events[..|events| - 1]);
    }
  }
}

=== FILE: auth_page.dfy ===
/** The signed-out screen (frontend/components/auth/AuthPage.tsx): which of spinner, welcome
    text, sign-in form or registration form is shown, and the switch between the two forms. */
module AuthPage {
  import opened Outcomes
  import AuthContext

  datatype View = Spinner | Welcome(text: string) | LoginView | SignupView

  datatype PageState = PageState(isLoginView: bool)

  /** The sign-in form comes first. */
  const Initial: PageState := PageState(true)

  function SwitchToSignup(p: PageState): (r: PageState)
    ensures !r.isLoginView
  {
    p.(isLoginView := false)
  }

  function SwitchToLogin(p: PageState): (r: PageState)
    ensures r.isLoginView
  {
    p.(isLoginView := true)
  }

  /** Switching to the registration form and back is the page's initial state. */
  lemma SwitchRoundTrip(p: PageState)
    ensures SwitchToLogin(SwitchToSignup(p)) == Initial
    ensures SwitchToSignup(SwitchToLogin(p)) == SwitchToSignup(Initial)
  {
  }

  /** `user.name || user.email`: the name unless it is missing or empty, else the email
      (nothing rendered for a missing email). */
  function WelcomeText(u: AuthContext.User): (t: string)
    ensures u.name.Some? && u.name.value != "" ==> t == u.name.value
    ensures (u.name.None? || u.name.value == "") && u.email.Some? ==> t == u.email.value
    ensures (u.name.None? || u.name.value == "") && u.email.None? ==> t == ""
  {
    if u.name.Some? && u.name.value != "" then u.name.value
    else if u.email.Some? then u.email.value
    else ""
  }

  /** The spinner while the session is loading, whoever is signed in and whichever form was
      chosen; then the welcome text for a user; else the chosen form. */
  function Render(auth: AuthContext.AuthState, p: PageState): (v: View)
    ensures v.Spinner? <==> auth.loading
    ensures v.Welcome? <==> !auth.loading && auth.user.Some?
    ensures v.Welcome? ==> v.text == WelcomeText(auth.user.value)
    ensures v.LoginView? <==> !auth.loading && auth.user.None? && p.isLoginView
    ensures v.SignupView? <==> !auth.loading && auth.user.None? && !p.isLoginView
  {
    if auth.loading then Spinner
    else if auth.user.Some? then Welcome(WelcomeText(auth.user.value))
    else if p.isLoginView then LoginView
    else SignupView
  }

  /** A user signed in through the provider is always greeted by a non-empty text: the
      derived name, or the email when the name derived from it is empty. */
  lemma SignedInWelcomeIsNeverEmpty(s: AuthContext.AuthState, u: AuthContext.ProviderUser, p: PageState)
    ensures Render(AuthContext.OnAuthStateChanged(s, Some(u)), p).Welcome?
    ensures Render(AuthContext.OnAuthStateChanged(s, Some(u)), p).text != ""
  {
  }

  /** While `login` or `signup` is awaited the page shows the spinner, whichever form was
      chosen: the form is unmounted for the whole call, and the one shown once the call has
      settled is mounted afresh. */
  lemma CallReplacesForm(s: AuthContext.AuthState, p: PageState, o: Outcome<(), AuthContext.ProviderError>)
    ensures Render(AuthContext.Login(s, o).inFlight, p) == Spinner
    ensures Render(AuthContext.Signup(s, o).inFlight, p) == Spinner
    ensures s.user.None? ==> Render(AuthContext.Login(s, o).settled, p) != Spinner
    ensures s.user.None? ==> Render(AuthContext.Signup(s, o).settled, p) != Spinner
  {
  }

  /** The first screen is the spinner, and a first event with nobody signed in shows the
      sign-in form. */
  lemma FirstScreens()
    ensures Render(AuthContext.Initial, Initial) == Spinner
    ensures Render(AuthContext.OnAuthStateChanged(AuthContext.Initial, None), Initial) == LoginView
  {
  }
}

=== FILE: bounding_box_overlay.dfy ===
/** The overlay of detection boxes on the uploaded image
    (frontend/components/dashboard/BoundingBoxOverlay.tsx). Each box on the fixed 0–1000 scale
    becomes a rectangle positioned in percent of the rendered image, whatever the image's pixel
    size. */
module BoundingBoxOverlay {
  import opened Outcomes
  import opened ApiTypes

  /** The side of the normalised coordinate square. */
  const Scale: real := 1000.0

  /** One rendered `div`: CSS `left`, `top`, `width`, `height` in percent, and its label. */
  datatype Rect = Rect(labelText: string, left: real, top: real, width: real, height: real)

  /** The `imageSize` prop the component declares. */
  datatype Size = Size(width: real, height: real)

  function Percent(v: real): real
  {
    (v / Scale) * 100.0
  }

  /** The rectangle of one detection: each percentage is a tenth of the coordinate it comes
      from, and the right and bottom edges land at a tenth of `xMax` and `yMax`. */
  function RectOf(d: Detection): (r: Rect)
    ensures r.labelText == d.labelText
    ensures r.left * 10.0 == d.box.xMin && r.top * 10.0 == d.box.yMin
    ensures (r.left + r.width) * 10.0 == d.box.xMax
    ensures (r.top + r.height) * 10.0 == d.box.yMax
  {
    Rect(d.labelText, Percent(d.box.xMin), Percent(d.box.yMin),
         Percent(d.box.xMax - d.box.xMin), Percent(d.box.yMax - d.box.yMin))
  }

  /** The box a rectangle was drawn from, read back from its CSS percentages. */
  function BoxOf(r: Rect): Box
  {
    Box(r.left * 10.0, r.top * 10.0, (r.left + r.width) * 10.0, (r.top + r.height) * 10.0)
  }

  /** Drawing loses nothing: the box can be recovered from its rectangle. */
  lemma RectRoundTrip(d: Detection)
    ensures BoxOf(RectOf(d)) == d.box
    ensures RectOf(d).labelText == d.labelText
  {
  }

  /** The rectangles for a detection list: one per detection, in input order. */
  function Rects(objects: seq<Detection>): (rs: seq<Rect>)
    ensures |rs| == |objects|
    ensures forall i :: 0 <= i < |objects| ==> rs[i] == RectOf(objects[i])
  {
    if |objects| == 0 then [] else [RectOf(objects[0])] + Rects(objects[1..])
  }

  /** What the component renders: nothing (`None`) for a missing or empty list, otherwise a
      rectangle per detection. The `imageSize` prop is accepted and never read. */
  function Overlay(objects: Option<seq<Detection>>, imageSize: Option<Size>): (r: Option<seq<Rect>>)
    ensures r.None? <==> objects.None? || |objects.value| == 0
    ensures r.Some? ==> |r.value| == |objects.value|
    ensures r.Some? ==> forall i :: 0 <= i < |r.value| ==> BoxOf(r.value[i]) == objects.value[i].box
    ensures r.Some? ==> forall i :: 0 <= i < |r.value| ==> r.value[i].labelText == objects.value[i].labelText
  {
    if objects.None? || |objects.value| == 0 then None
    else
      var rs := Rects(objects.value);
      assert forall i :: 0 <= i < |rs| ==> BoxOf(rs[i]) == objects.value[i].box by {
        forall i | 0 <= i < |rs| ensures BoxOf(rs[i]) == objects.value[i].box {
          RectRoundTrip(objects.value[i]);
        }
      }
      Some(rs)
  }

  /** The rendering does not depend on the image's size. */
  lemma OverlayIgnoresImageSize(objects: Option<seq<Detection>>, a: Option<Size>, b: Option<Size>)
    ensures Overlay(objects, a) == Overlay(objects, b)
  {
  }

  /** A box on the 0–1000 scale stays inside the image, flush with it where the box touches
      the scale's ends. */
  predicate InScale(b: Box)
  {
    0.0 <= b.xMin <= b.xMax <= Scale && 0.0 <= b.yMin <= b.yMax <= Scale
  }

  predicate WithinImage(r: Rect)
  {
    && 0.0 <= r.left <= 100.0 && 0.0 <= r.top <= 100.0
    && 0.0 <= r.width <= 100.0 && 0.0 <= r.height <= 100.0
    && r.left + r.width <= 100.0 && r.top + r.height <= 100.0
  }

  /** A rectangle lies inside the image exactly when its box lies on the 0–1000 scale: in
      particular nothing is clamped, and a box off the scale is drawn off the image. */
  lemma WithinImageIffInScale(d: Detection)
    ensures WithinImage(RectOf(d)) <==> InScale(d.box)
  {
  }
}

=== FILE: chat_interface.dfy ===
/** The chat panel (frontend/components/dashboard/ChatInterface.tsx): the transcript, the input
    box and the `loading` flag, the `handleSend` transition and the "Detected:" summary line.

    `handleSend` awaits the chat API between its two halves; here the first half is
    `BeginSend`, which yields the state shown while the request is in flight and the request
    itself, and the second half is `FinishSend`, which applies the API's outcome. */
module ChatInterface {
  import opened Outcomes
  import opened ApiTypes
  import opened Strings

  datatype ChatState = ChatState(messages: seq<Message>, input: string, loading: bool)

  /** The state a freshly mounted panel starts in. */
  const Initial: ChatState := ChatState([], "", false)

  /** The assistant turn appended when the chat call fails. */
  const ApologyText: string := "Sorry, I encountered an error. Please try again."

  /** The history sent with a prompt: one turn per message, in order, each keeping the
      message's role and holding its content as a single part. */
  function HistoryOf(messages: seq<Message>): (h: seq<ChatHistory>)
    ensures |h| == |messages|
    ensures forall i :: 0 <= i < |messages| ==>
      RoleOfName(h[i].role) == Some(messages[i].role) && h[i].parts == [Part(messages[i].content)]
  {
    if |messages| == 0 then []
    else [ChatHistory(RoleName(messages[0].role), [Part(messages[0].content)])] + HistoryOf(messages[1..])
  }

  /** Reads a history back into messages; `None` when a turn has an unknown role or is not
      exactly one part. */
  function MessagesOf(h: seq<ChatHistory>): Option<seq<Message>>
  {
    if |h| == 0 then Some([])
    else
      var role := RoleOfName(h[0].role);
      var rest := MessagesOf(h[1..]);
      if role.None? || |h[0].parts| != 1 || rest.None? then None
      else Some([Message(role.value, h[0].parts[0].text)] + rest.value)
  }

  /** The history loses nothing: the transcript it was built from can be read back from it. */
  lemma {:induction false} HistoryRoundTrip(messages: seq<Message>)
    ensures MessagesOf(HistoryOf(messages)) == Some(messages)
  {
    if |messages| > 0 {
      var m := messages[0];
      var turn := ChatHistory(RoleName(m.role), [Part(m.content)]);
      var rest := HistoryOf(messages[1..]);
      assert HistoryOf(messages) == [turn] + rest;
      assert ([turn] + rest)[0] == turn && ([turn] + rest)[1..] == rest;
      HistoryRoundTrip(messages[1..]);
      assert RoleOfName(turn.role) == Some(m.role);
      assert messages == [m] + messages[1..];
    }
  }

  /** `onChange` of the input box: the typed text becomes the input. While a reply is awaited
      the box is disabled and typing has no effect. The transcript is never touched. */
  function TypeInput(st: ChatState, text: string): (r: ChatState)
    ensures r.messages == st.messages && r.loading == st.loading
    ensures !st.loading ==> r.input == text
    ensures st.loading ==> r == st
  {
    if st.loading then st else st.(input := text)
  }

  /** The first half of `handleSend`. */
  datatype SendStart =
    | Ignored
    | Dispatched(pending: ChatState, request: ChatRequest)

  /** Blank or whitespace-only input, or a request already in flight, leaves everything as it
      was and sends nothing. Otherwise the raw, untrimmed input is appended as a user turn,
      the input is cleared, `loading` is raised, and the request carries the image, the input
      captured at call time and the history of the transcript as it was before the new turn. */
  function BeginSend(st: ChatState, image: ImageData): (r: SendStart)
    ensures r.Ignored? <==> AllWhitespace(st.input) || st.loading
    ensures r.Dispatched? ==>
      && r.pending.messages == st.messages + [Message(User, st.input)]
      && r.pending.input == ""
      && r.pending.loading
    ensures r.Dispatched? ==>
      && r.request.prompt == st.input
      && MessagesOf(r.request.history) == Some(st.messages)
      && r.request.fileData == image.data
      && r.request.fileType == image.mimeType
  {
    if Trim(st.input) == "" || st.loading then Ignored
    else
      HistoryRoundTrip(st.messages);
      Dispatched(ChatState(st.messages + [Message(User, st.input)], "", true),
                 ChatRequest(image.data, image.mimeType, st.input, HistoryOf(st.messages)))
  }

  /** The assistant turn for a settled chat call: the reply text, or the fixed apology. */
  function Reply(outcome: Outcome<string, Fault>): (m: Message)
    ensures m.role == Assistant
    ensures outcome.Ok? ==> m.content == outcome.value
    ensures outcome.Err? ==> m.content == ApologyText
  {
    match outcome
    case Ok(text) => Message(Assistant, text)
    case Err(_) => Message(Assistant, ApologyText)
  }

  /** The second half of `handleSend`: exactly one assistant turn is appended after
      everything already there, and `loading` drops. */
  function FinishSend(pending: ChatState, outcome: Outcome<string, Fault>): (r: ChatState)
    ensures |r.messages| == |pending.messages| + 1
    ensures r.messages[..|pending.messages|] == pending.messages
    ensures r.messages[|pending.messages|] == Reply(outcome)
    ensures r.input == pending.input && !r.loading
  {
    ChatState(pending.messages + [Reply(outcome)], pending.input, false)
  }

  /** The whole of `handleSend` for one outcome of the chat call. */
  function HandleSend(st: ChatState, image: ImageData, outcome: Outcome<string, Fault>): (r: ChatState)
    ensures AllWhitespace(st.input) || st.loading ==> r == st
    ensures !AllWhitespace(st.input) && !st.loading ==>
      && r.messages == st.messages + [Message(User, st.input), Reply(outcome)]
      && r.input == ""
      && !r.loading
  {
    match BeginSend(st, image)
    case Ignored => st
    case Dispatched(pending, _) => FinishSend(pending, outcome)
  }

  /** Sending never removes or rewrites a turn, whether the call succeeds or fails: the old
      transcript stays a prefix and the user's turn stays right after it. */
  lemma SendKeepsTranscript(st: ChatState, image: ImageData, outcome: Outcome<string, Fault>)
    requires !AllWhitespace(st.input) && !st.loading
    ensures HandleSend(st, image, outcome).messages[..|st.messages|] == st.messages
    ensures HandleSend(st, image, outcome).messages[|st.messages|] == Message(User, st.input)
    ensures outcome.Err? ==> HandleSend(st, image, outcome).messages[|st.messages| + 1].content == ApologyText
  {
  }

  /** `handleSend` as the file stands: `apiService` is called but never imported, so the call
      throws inside the `try` before any request leaves, and the `catch` appends the apology
      to every accepted send, whatever the backend would have answered. */
  function HandleSendAsWritten(st: ChatState, image: ImageData): (r: ChatState)
    ensures AllWhitespace(st.input) || st.loading ==> r == st
    ensures !AllWhitespace(st.input) && !st.loading ==>
      && r.messages == st.messages + [Message(User, st.input), Message(Assistant, ApologyText)]
      && r.input == ""
      && !r.loading
  {
    match BeginSend(st, image)
    case Ignored => st
    case Dispatched(pending, _) => FinishSend(pending, Err(Fault))
  }

  /** The missing import shows on the first message: "hi" to a backend that would answer
      "Hello" ends with the apology as written, and with "Hello" once the call can be made. */
  lemma AsWrittenAlwaysApologises()
    ensures var st := ChatState([], "hi", false);
      var image := ImageData(Some("AAAA"), "image/png", "");
      && HandleSendAsWritten(st, image).messages[1].content == ApologyText
      && HandleSend(st, image, Ok("Hello")).messages[1].content == "Hello"
  {
    assert !IsJsWhitespace("hi"[0]);
  }

  /** With the call reachable, a successful reply is what gets appended; the code as written
      differs from that on every accepted send whose reply is not the apology text itself. */
  lemma SuccessAppendsReply(st: ChatState, image: ImageData, text: string)
    requires !AllWhitespace(st.input) && !st.loading
    ensures HandleSend(st, image, Ok(text)).messages[|st.messages| + 1] == Message(Assistant, text)
    ensures text != ApologyText ==> HandleSendAsWritten(st, image) != HandleSend(st, image, Ok(text))
  {
    var intended := HandleSend(st, image, Ok(text));
    assert intended.messages[|st.messages| + 1] == Message(Assistant, text);
    assert HandleSendAsWritten(st, image).messages[|st.messages| + 1].content == ApologyText;
  }

  /** What is typed is what is sent: typing a non-blank text into an idle panel and sending
      adds that text as the user turn, followed by the reply. */
  lemma TypedTextIsSent(st: ChatState, image: ImageData, text: string, outcome: Outcome<string, Fault>)
    requires !st.loading && !AllWhitespace(text)
    ensures HandleSend(TypeInput(st, text), image, outcome).messages ==
      st.messages + [Message(User, text), Reply(outcome)]
  {
  }

  /** The labels of the detections, in order. */
  function Labels(objects: seq<Detection>): (ls: seq<string>)
    ensures |ls| == |objects|
    ensures forall i :: 0 <= i < |objects| ==> ls[i] == objects[i].labelText
  {
    if |objects| == 0 then [] else [objects[0].labelText] + Labels(objects[1..])
  }

  /** The text after "Detected: ": shown only when there is an analysis with at least one
      detection, and then the labels joined by ", ". */
  function DetectedSummary(analysis: Option<AnalysisResults>): (r: Option<string>)
    ensures r.Some? <==>
      analysis.Some? && analysis.value.detectedObjects.Some? && |analysis.value.detectedObjects.value| > 0
    ensures r.Some? ==> r.value == Join(Labels(analysis.value.detectedObjects.value), ", ")
  {
    if analysis.Some? && analysis.value.detectedObjects.Some? && |analysis.value.detectedObjects.value| > 0
    then Some(Join(Labels(analysis.value.detectedObjects.value), ", "))
    else None
  }

  /** Each text with a leading space. */
  function Indented(ls: seq<string>): (r: seq<string>)
    ensures |r| == |ls|
    ensures forall i :: 0 <= i < |ls| ==> r[i] == " " + ls[i]
  {
    if |ls| == 0 then [] else [" " + ls[0]] + Indented(ls[1..])
  }

  /** Joining with ", " is joining with "," after indenting every part but the first. */
  lemma {:induction false} JoinCommaSpace(ls: seq<string>)
    requires |ls| >= 1
    ensures Join(ls, ", ") == Join([ls[0]] + Indented(ls[1..]), ",")
    decreases |ls|
  {
    if |ls| > 1 {
      var rest := Indented(ls[2..]);
      JoinCommaSpace(ls[1..]);
      assert ls[1..][0] == ls[1] && ls[1..][1..] == ls[2..];
      JoinExtendsFirst(" ", [ls[1]] + rest, ",");
      assert [" " + ls[1]] + rest == [" " + ([ls[1]] + rest)[0]] + ([ls[1]] + rest)[1..];
      assert Indented(ls[1..]) == [" " + ls[1]] + rest;
      var ps := [ls[0]] + ([" " + ls[1]] + rest);
      assert ps[1..] == [" " + ls[1]] + rest;
      assert [ls[0]] + Indented(ls[1..]) == ps;
    }
  }

  /** The summary can be read back: when no label contains a comma, splitting it at commas
      gives the first label followed by the others, each behind the space of ", ". */
  lemma SummaryReadsBack(objects: seq<Detection>)
    requires |objects| > 0
    requires forall i :: 0 <= i < |objects| ==> ',' !in objects[i].labelText
    ensures Split(Join(Labels(objects), ", "), ',') == [objects[0].labelText] + Indented(Labels(objects)[1..])
  {
    var ls := Labels(objects);
    var tail := Indented(ls[1..]);
    var parts := [ls[0]] + tail;
    JoinCommaSpace(ls);
    forall i | 0 <= i < |parts| ensures ',' !in parts[i] {
      if i == 0 {
        assert parts[0] == objects[0].labelText;
      } else {
        assert parts[i] == tail[i - 1];
        assert tail[i - 1] == " " + ls[i];
        assert ls[i] == objects[i].labelText;
        assert ',' !in " ";
      }
    }
    SplitJoin(parts, ',');
  }
}

=== FILE: dashboard.dfy ===
/** The signed-in screen (frontend/components/dashboard/Dashboard.tsx): which image is loaded,
    its latest analysis, the loading and error flags, whether chat has been unlocked, and the
    chat panel that is mounted while chat is unlocked for an image.

    The chat panel keeps its transcript only while it is mounted: React discards a component's
    state when it stops being rendered, so `chat` is `None` whenever the panel is not shown and
    a newly shown panel starts from `ChatInterface.Initial`. */
module Dashboard {
  import opened Outcomes
  import opened ApiTypes
  import ChatInterface
  import BoundingBoxOverlay
  import Strings

  datatype DashState = DashState(
    image: Option<ImageData>,
    analysis: Option<AnalysisResults>,
    loading: bool,
    error: string,
    showChat: bool,
    chat: Option<ChatInterface.ChatState>)

  const Initial: DashState := DashState(None, None, false, "", false, None)

  const AnalyzeFailedText: string := "Failed to analyze image. Please check your backend connection."

  /** The upload widget is shown exactly while no image is loaded. */
  predicate UploadShown(s: DashState)
  {
    s.image.None?
  }

  /** The overlay is rendered over a loaded image once it has an analysis. */
  predicate OverlayShown(s: DashState)
    ensures OverlayShown(s) ==> !UploadShown(s) && s.analysis.Some?
    ensures !UploadShown(s) && s.analysis.Some? ==> OverlayShown(s)
  {
    s.image.Some? && s.analysis.Some?
  }

  /** The chat panel replaces its placeholder once an image is loaded and chat is unlocked. */
  predicate ChatShown(s: DashState)
    ensures ChatShown(s) ==> !UploadShown(s) && s.showChat
    ensures !UploadShown(s) && s.showChat ==> ChatShown(s)
  {
    s.image.Some? && s.showChat
  }

  /** The upload widget and the loaded image's panel are the two branches of one choice: the
      widget is shown exactly when neither the overlay nor the chat panel can be, and the
      chat placeholder is shown whenever the widget is. */
  lemma UploadExcludesImagePanel(s: DashState)
    ensures UploadShown(s) <==> s.image.None?
    ensures UploadShown(s) ==> !OverlayShown(s) && !ChatShown(s)
  {
  }

  /** The rectangles drawn over the image: nothing unless the overlay is rendered. */
  function Boxes(s: DashState): (r: Option<seq<BoundingBoxOverlay.Rect>>)
    ensures r.Some? <==>
      OverlayShown(s) && s.analysis.value.detectedObjects.Some? && |s.analysis.value.detectedObjects.value| > 0
    ensures r.Some? ==> |r.value| == |s.analysis.value.detectedObjects.value|
    ensures r.Some? ==> forall i :: 0 <= i < |r.value| ==>
      r.value[i] == BoundingBoxOverlay.RectOf(s.analysis.value.detectedObjects.value[i])
  {
    if OverlayShown(s) then BoundingBoxOverlay.Overlay(s.analysis.value.detectedObjects, None) else None
  }

  /** Settles which chat panel exists after `before` became `after`: a panel that stays shown
      keeps its state, a newly shown one starts fresh, and a hidden one is gone. */
  function Remount(before: DashState, after: DashState): (r: DashState)
    ensures r.chat.Some? <==> ChatShown(after)
    ensures ChatShown(before) && ChatShown(after) && before.chat.Some? ==> r.chat == before.chat
    ensures r == after.(chat := r.chat)
  {
    if !ChatShown(after) then after.(chat := None)
    else if ChatShown(before) && before.chat.Some? then after.(chat := before.chat)
    else after.(chat := Some(ChatInterface.Initial))
  }

  /** The state every reachable screen is in between handlers: no call is in flight, chat is
      only unlocked and an analysis only held for a loaded image, and the chat panel exists
      exactly while it is shown. */
  predicate Settled(s: DashState)
  {
    && !s.loading
    && (s.showChat ==> s.image.Some?)
    && (s.analysis.Some? ==> s.image.Some?)
    && (s.chat.Some? <==> ChatShown(s))
    && (s.chat.Some? ==> !s.chat.value.loading)
  }

  /** `onImageSelect={setImage}`: the upload widget, and with it this callback, exists only
      while no image is loaded, so a selection loads the first image. */
  function SelectImage(s: DashState, img: ImageData): (r: DashState)
    requires UploadShown(s)
    ensures r.image == Some(img)
    ensures r.analysis == s.analysis && r.loading == s.loading && r.error == s.error && r.showChat == s.showChat
    ensures r.chat == (if s.showChat then Some(ChatInterface.Initial) else None)
    ensures Settled(s) ==> r.chat == s.chat
  {
    Remount(s, s.(image := Some(img)))
  }

  /** The first half of `handleAnalyze`. */
  datatype AnalyzeStart =
    | NoImage
    | Requested(pending: DashState, request: AnalyzeRequest)

  /** Without an image nothing happens; otherwise `loading` rises, the error clears, and the
      request carries the image's payload and type. */
  function BeginAnalyze(s: DashState): (r: AnalyzeStart)
    ensures r.NoImage? <==> s.image.None?
    ensures r.Requested? ==>
      && r.pending == s.(loading := true, error := "")
      && r.request == AnalyzeRequest(s.image.value.data, s.image.value.mimeType)
  {
    if s.image.None? then NoImage
    else Requested(s.(loading := true, error := ""),
                   AnalyzeRequest(s.image.value.data, s.image.value.mimeType))
  }

  /** The second half of `handleAnalyze`: a result replaces the previous analysis outright
      and unlocks chat; a failure sets the fixed connection message and keeps the previous
      analysis. The image is never touched, and `loading` drops either way. A chat panel
      that was shown stays mounted with its transcript; one shown for the first time starts
      empty. */
  function FinishAnalyze(pending: DashState, outcome: Outcome<AnalysisResults, Fault>): (r: DashState)
    ensures r.image == pending.image && !r.loading
    ensures outcome.Ok? ==> r.analysis == Some(outcome.value) && r.showChat && r.error == pending.error
    ensures outcome.Err? ==>
      r.analysis == pending.analysis && r.showChat == pending.showChat && r.error == AnalyzeFailedText
    ensures r.chat ==
      if !ChatShown(r) then None
      else if ChatShown(pending) && pending.chat.Some? then pending.chat
      else Some(ChatInterface.Initial)
  {
    match outcome
    case Ok(results) => Remount(pending, pending.(analysis := Some(results), showChat := true, loading := false))
    case Err(_) => Remount(pending, pending.(error := AnalyzeFailedText, loading := false))
  }

  /** The whole of `handleAnalyze` for one outcome of the analysis call. */
  function HandleAnalyze(s: DashState, outcome: Outcome<AnalysisResults, Fault>): (r: DashState)
    ensures s.image.None? ==> r == s
    ensures s.image.Some? ==> r.image == s.image && !r.loading
    ensures s.image.Some? && outcome.Ok? ==> r.analysis == Some(outcome.value) && r.showChat && r.error == ""
    ensures s.image.Some? && outcome.Err? ==>
      r.analysis == s.analysis && r.showChat == s.showChat && r.error == AnalyzeFailedText
    ensures s.image.Some? ==>
      r.chat == (if !ChatShown(r) then None
                 else if ChatShown(s) && s.chat.Some? then s.chat
                 else Some(ChatInterface.Initial))
  {
    match BeginAnalyze(s)
    case NoImage => s
    case Requested(pending, _) => FinishAnalyze(pending, outcome)
  }

  /** `handleReset`: back to the upload widget with no analysis, no error and no chat panel;
      the `loading` flag is left as it was. */
  function HandleReset(s: DashState): (r: DashState)
    ensures UploadShown(r) && !OverlayShown(r) && !ChatShown(r)
    ensures r.chat.None? && r.analysis.None? && r.error == "" && !r.showChat
    ensures r.loading == s.loading
  {
    Remount(s, s.(image := None, analysis := None, showChat := false, error := ""))
  }

  /** A message typed into the mounted chat panel; without a panel there is nothing to type
      into. */
  function SendChat(s: DashState, outcome: Outcome<string, Fault>): (r: DashState)
    ensures !ChatShown(s) || s.chat.None? ==> r == s
    ensures ChatShown(s) && s.chat.Some? ==>
      r == s.(chat := Some(ChatInterface.HandleSend(s.chat.value, s.image.value, outcome)))
  {
    if ChatShown(s) && s.chat.Some? then s.(chat := Some(ChatInterface.HandleSend(s.chat.value, s.image.value, outcome)))
    else s
  }

  /** Typing reaches the chat panel's input box only while the panel is mounted. */
  function TypeChat(s: DashState, text: string): (r: DashState)
    ensures !ChatShown(s) || s.chat.None? ==> r == s
    ensures ChatShown(s) && s.chat.Some? ==> r == s.(chat := Some(ChatInterface.TypeInput(s.chat.value, text)))
  {
    if ChatShown(s) && s.chat.Some? then s.(chat := Some(ChatInterface.TypeInput(s.chat.value, text)))
    else s
  }

  /** What the user can do on the screen. */
  datatype Event =
    | Select(img: ImageData)
    | Analyze(analyzed: Outcome<AnalysisResults, Fault>)
    | Reset
    | Type(text: string)
    | Chat(replied: Outcome<string, Fault>)

  function Apply(s: DashState, e: Event): DashState
  {
    match e
    case Select(img) => if UploadShown(s) then SelectImage(s, img) else s
    case Analyze(o) => HandleAnalyze(s, o)
    case Reset => HandleReset(s)
    case Type(t) => TypeChat(s, t)
    case Chat(o) => SendChat(s, o)
  }

  /** The screen after a sequence of events from its initial state. */
  function Run(events: seq<Event>): DashState
  {
    if |events| == 0 then Initial else Apply(Run(events[..|events| - 1]), events[|events| - 1])
  }

  /** Every handler keeps a settled screen settled. */
  lemma ApplyKeepsSettled(s: DashState, e: Event)
    requires Settled(s)
    ensures Settled(Apply(s, e))
  {
  }

  /** Every screen reachable from the initial one is settled: in particular a transcript
      exists only while an image is loaded and chat is unlocked. */
  lemma {:induction false} RunIsSettled(events: seq<Event>)
    ensures Settled(Run(events))
    decreases |events|
  {
    if |events| > 0 {
      RunIsSettled(events[..|events| - 1]);
      ApplyKeepsSettled(Run(events[..|events| - 1]), events[|events| - 1]);
    }
  }

  /** A transcript never outlives the image it was opened for: whenever a handler changes
      the loaded image, no chat panel exists afterwards, and a panel that exists before and
      after a handler belongs to the same image. */
  lemma TranscriptBoundToImage(s: DashState, e: Event)
    requires Settled(s)
    ensures Apply(s, e).image != s.image ==> Apply(s, e).chat.None?
    ensures s.chat.Some? && Apply(s, e).chat.Some? ==> Apply(s, e).image == s.image
  {
  }

  /** Resetting discards the transcript, and a later analysis starts a fresh one: nothing
      said about the previous image survives. */
  lemma ResetDiscardsTranscript(s: DashState, img: ImageData, results: AnalysisResults)
    ensures HandleReset(s).chat.None?
    ensures HandleAnalyze(SelectImage(HandleReset(s), img), Ok(results)).chat == Some(ChatInterface.Initial)
  {
  }

  /** A whole conversation: an image is chosen and analysed, "hi" is typed and answered with
      "Hello", and the two turns are on screen until a reset discards them. */
  lemma ConversationUntilReset(img: ImageData, results: AnalysisResults)
    ensures var events := [Select(img), Analyze(Ok(results)), Type("hi"), Chat(Ok("Hello"))];
      && Run(events).chat == Some(ChatInterface.ChatState([Message(User, "hi"), Message(Assistant, "Hello")], "", false))
      && Run(events + [Reset]).chat.None?
  {
    var events := [Select(img), Analyze(Ok(results)), Type("hi"), Chat(Ok("Hello"))];
    var chosen := SelectImage(Initial, img);
    assert events[..0] == [] && events[..1] == [Select(img)];
    assert Run(events[..1]) == chosen;
    var analysed := HandleAnalyze(chosen, Ok(results));
    assert events[..2] == [Select(img), Analyze(Ok(results))];
    assert Run(events[..2]) == analysed;
    assert analysed.chat == Some(ChatInterface.Initial) && ChatShown(analysed);
    var typed := TypeChat(analysed, "hi");
    assert events[..3] == [Select(img), Analyze(Ok(results)), Type("hi")];
    assert events[..3][..2] == events[..2];
    assert Run(events[..3]) == typed;
    assert typed.chat == Some(ChatInterface.ChatState([], "hi", false)) && ChatShown(typed);
    assert !Strings.AllWhitespace("hi") by {
      assert !Strings.IsJsWhitespace("hi"[0]);
    }
    assert events[..3] == events[..|events| - 1];
    assert Run(events) == SendChat(typed, Ok("Hello"));
    var sent := ChatInterface.HandleSend(typed.chat.value, img, Ok("Hello"));
    assert Run(events).chat == Some(sent);
    assert ChatInterface.Reply(Ok("Hello")) == Message(Assistant, "Hello");
    assert sent.messages == [] + [Message(User, "hi"), Message(Assistant, "Hello")];
    assert sent.input == "" && !sent.loading;
    assert [] + [Message(User, "hi"), Message(Assistant, "Hello")] == [Message(User, "hi"), Message(Assistant, "Hello")];
    assert sent == ChatInterface.ChatState(sent.messages, sent.input, sent.loading);
    assert Run(events).chat == Some(ChatInterface.ChatState([Message(User, "hi"), Message(Assistant, "Hello")], "", false));
    assert (events + [Reset])[..4] == events;
    assert Run(events + [Reset]) == HandleReset(Run(events));
  }

  /** Analysing again, whether it succeeds or fails, keeps the open chat panel and its
      transcript: the panel stays mounted because the image and the chat unlock stay. */
  lemma ReanalysisKeepsTranscript(s: DashState, outcome: Outcome<AnalysisResults, Fault>)
    requires Settled(s) && ChatShown(s)
    ensures HandleAnalyze(s, outcome).chat == s.chat && s.chat.Some?
  {
  }

  /** A second analysis supersedes the first instead of merging with it. */
  lemma AnalysisSupersedes(s: DashState, first: AnalysisResults, second: AnalysisResults)
    requires s.image.Some?
    ensures HandleAnalyze(HandleAnalyze(s, Ok(first)), Ok(second)).analysis == Some(second)
  {
  }

  /** A failed analysis after a successful one keeps the earlier result on screen, with the
      overlay still drawn and chat still open. */
  lemma FailureKeepsPreviousResult(s: DashState, results: AnalysisResults)
    requires s.image.Some?
    ensures var r := HandleAnalyze(HandleAnalyze(s, Ok(results)), Err(Fault));
      && r.analysis == Some(results) && OverlayShown(r) && ChatShown(r) && r.error == AnalyzeFailedText
  {
  }
}

=== FILE: image_upload.dfy ===
/** The upload widget (frontend/components/dashboard/ImageUpload.tsx): the MIME check, the split
    of the data URL into payload and preview, and the drag-and-drop highlight.

    Reading a file is I/O: a `File` carries the data URL `FileReader.readAsDataURL` produces
    for it, and what the widget hands to its `onImageSelect` callback is returned as an
    `Option` (`None`: the callback is not called). */
module ImageUpload {
  import opened Outcomes
  import opened ApiTypes
  import opened Strings

  /** A selected file: its declared MIME type and the data URL read from it. */
  datatype File = File(mimeType: string, dataUrl: string)

  datatype UploadState = UploadState(dragActive: bool)

  const Initial: UploadState := UploadState(false)

  const ImageTypePrefix: string := "image/"

  /** `result.split(',')[1]`: the text between the first and second comma of the data URL,
      or `undefined` when it has no comma. */
  function PayloadOf(dataUrl: string): (r: Option<string>)
    ensures r.Some? <==> ',' in dataUrl
    ensures r.Some? ==> ',' !in r.value
  {
    SplitFirstSegment(dataUrl, ',');
    var parts := Split(dataUrl, ',');
    if |parts| >= 2 then Some(parts[1]) else None
  }

  /** The payload is the segment right behind the first comma: the data URL begins with a
      comma-free header, a comma and the payload, and the payload runs up to the second comma
      or to the end of the URL. */
  lemma PayloadFollowsFirstComma(dataUrl: string)
    requires PayloadOf(dataUrl).Some?
    ensures var header := Split(dataUrl, ',')[0];
      ',' !in header && header + "," + PayloadOf(dataUrl).value <= dataUrl
    ensures var k := |Split(dataUrl, ',')[0]| + 1 + |PayloadOf(dataUrl).value|;
      k <= |dataUrl| && (k == |dataUrl| || dataUrl[k] == ',')
  {
    var parts := Split(dataUrl, ',');
    assert Join(parts, ",") == parts[0] + "," + Join(parts[1..], ",");
    if |parts| > 2 {
      assert Join(parts[1..], ",") == parts[1] + "," + Join(parts[2..], ",");
    }
  }

  /** For an image file whose data URL is a comma-free header, a comma and a comma-free
      payload, the accepted image carries exactly that payload, and header, comma and payload
      give the preview back. */
  lemma DataUrlRoundTrip(mimeType: string, header: string, payload: string)
    requires ImageTypePrefix <= mimeType
    requires ',' !in header && ',' !in payload
    ensures var img := HandleFile(File(mimeType, header + "," + payload));
      && img.Some?
      && img.value.data == Some(payload)
      && header + "," + img.value.data.value == img.value.preview
  {
    SplitJoin([header, payload], ',');
    assert Join([header, payload], ",") == header + "," + payload;
  }

  /** `handleFile`: a file whose type does not start with "image/" is ignored; otherwise the
      callback receives the payload, the declared type verbatim and the whole data URL. */
  function HandleFile(f: File): (r: Option<ImageData>)
    ensures r.None? <==> !(ImageTypePrefix <= f.mimeType)
    ensures r.Some? ==> r.value.mimeType == f.mimeType && r.value.preview == f.dataUrl
    ensures r.Some? ==> r.value.data == PayloadOf(f.dataUrl)
  {
    if ImageTypePrefix <= f.mimeType then Some(ImageData(PayloadOf(f.dataUrl), f.mimeType, f.dataUrl))
    else None
  }

  /** The file picker's `onChange`: the first chosen file, if any, goes through `handleFile`. */
  function HandleChoose(files: seq<File>): (r: Option<ImageData>)
    ensures |files| == 0 ==> r.None?
    ensures |files| > 0 ==> r == HandleFile(files[0])
  {
    if |files| > 0 then HandleFile(files[0]) else None
  }

  /** `onDragOver` raises the highlight and `onDragLeave` lowers it. */
  function HandleDragOver(st: UploadState): (r: UploadState)
    ensures r.dragActive
  {
    st.(dragActive := true)
  }

  function HandleDragLeave(st: UploadState): (r: UploadState)
    ensures !r.dragActive
  {
    st.(dragActive := false)
  }

  /** `handleDrop`: the highlight drops and only the first dropped file is considered; a drop
      without files selects nothing. */
  function HandleDrop(st: UploadState, files: seq<File>): (r: (UploadState, Option<ImageData>))
    ensures !r.0.dragActive
    ensures |files| == 0 ==> r.1.None?
    ensures |files| > 0 ==> r.1 == HandleFile(files[0])
  {
    (st.(dragActive := false), if |files| > 0 then HandleFile(files[0]) else None)
  }

  /** Dropping files and choosing them with the picker select the same image, and what the
      later files are plays no part. */
  lemma DropAgreesWithPicker(st: UploadState, files: seq<File>, more: seq<File>)
    requires |files| > 0
    ensures HandleDrop(st, files + more).1 == HandleChoose(files)
    ensures HandleDrop(st, files).1 == HandleChoose(files)
  {
  }
}

=== FILE: login_page.dfy ===
/** The sign-in form (frontend/components/auth/LoginPage.tsx): its local pre-validation, the
    `isSubmitting` flag, and the classification of a caught error's `code` into the message the
    form sets as its error.

    The `login` call is a parameter: it resolves, or rejects with an error whose `code`
    property is given (`None` when the error has no `code`). */
module LoginPage {
  import opened Outcomes
  import AuthContext

  datatype LoginForm = LoginForm(email: string, password: string, error: string, isSubmitting: bool)

  const Initial: LoginForm := LoginForm("", "", "", false)

  const MissingFieldsText: string := "Please enter both email and password."
  const DefaultText: string := "Login failed. Please check your credentials."
  const InvalidCredentialsText: string := "Invalid email or password. Please check your details."
  const InvalidEmailText: string := "The email address is not valid."
  const TooManyRequestsText: string := "Access temporarily blocked due to too many failed login attempts."

  /** The codes the form classifies are the four `login` itself maps. */
  const KnownCodes: set<string> := AuthContext.LoginCodes

  /** The error set for a caught error: an unknown account and a wrong password are
      reported alike, two more codes have their own message, and the default is set exactly
      when the code is missing or unknown. */
  function ErrorText(code: Option<string>): (msg: string)
    ensures code == Some("auth/user-not-found") || code == Some("auth/wrong-password") ==> msg == InvalidCredentialsText
    ensures code == Some("auth/invalid-email") ==> msg == InvalidEmailText
    ensures code == Some("auth/too-many-requests") ==> msg == TooManyRequestsText
    ensures msg == DefaultText <==> code.None? || code.value !in KnownCodes
  {
    if code == Some("auth/user-not-found") || code == Some("auth/wrong-password") then InvalidCredentialsText
    else if code == Some("auth/invalid-email") then InvalidEmailText
    else if code == Some("auth/too-many-requests") then TooManyRequestsText
    else DefaultText
  }

  /** One press of "Sign In". */
  datatype Submit =
    | Rejected(form: LoginForm)
    | Attempted(submitting: LoginForm, email: string, password: string, settled: LoginForm)

  /** `handleSubmit`. A submit while one is running, or with an empty field, shows the
      missing-fields message and calls nothing. Otherwise the error is cleared and
      `isSubmitting` raised before `login` is called with the fields as typed; once it settles
      `isSubmitting` drops and the error is empty on success or the classified message. */
  function HandleSubmit(f: LoginForm, outcome: Outcome<(), Option<string>>): (r: Submit)
    ensures r.Rejected? <==> f.isSubmitting || f.email == "" || f.password == ""
    ensures r.Rejected? ==> r.form == f.(error := MissingFieldsText)
    ensures r.Attempted? ==>
      && r.submitting == f.(error := "", isSubmitting := true)
      && r.email == f.email && r.password == f.password
    ensures r.Attempted? ==>
      && r.settled.email == f.email && r.settled.password == f.password
      && !r.settled.isSubmitting
      && (outcome.Ok? ==> r.settled.error == "")
      && (outcome.Err? ==> r.settled.error == ErrorText(outcome.error))
  {
    if f.isSubmitting || f.email == "" || f.password == "" then Rejected(f.(error := MissingFieldsText))
    else
      var submitting := f.(error := "", isSubmitting := true);
      var error := match outcome
        case Ok(_) => ""
        case Err(code) => ErrorText(code);
      Attempted(submitting, f.email, f.password, submitting.(error := error, isSubmitting := false))
  }

  /** The form wired to the session provider: the provider's outcome reaches the form through
      `AuthContext.Login`. The local check is unchanged; an attempt settles with no error when
      the provider accepts and with the default message whenever it rejects. */
  function SubmitThroughProvider(f: LoginForm, s: AuthContext.AuthState, outcome: Outcome<(), AuthContext.ProviderError>): (r: Submit)
    ensures r.Rejected? <==> f.isSubmitting || f.email == "" || f.password == ""
    ensures r.Attempted? ==> r.submitting == f.(error := "", isSubmitting := true)
    ensures r.Attempted? ==>
      && !r.settled.isSubmitting
      && r.settled.error == (if outcome.Ok? then "" else DefaultText)
  {
    var thrown := AuthContext.Login(s, outcome).thrown;
    HandleSubmit(f, if thrown.Some? then Err(AuthContext.CodeOf(thrown.value)) else Ok(()))
  }

  /** Wired to the session provider, every provider rejection, whatever its code, sets the
      form's error to the default message: the rethrown error carries no code, so the specific
      messages above are never reached this way. */
  lemma ProviderRejectionSetsDefault(f: LoginForm, s: AuthContext.AuthState, e: AuthContext.ProviderError)
    requires !f.isSubmitting && f.email != "" && f.password != ""
    ensures SubmitThroughProvider(f, s, Err(e)).Attempted?
    ensures SubmitThroughProvider(f, s, Err(e)).settled.error == DefaultText
  {
  }
}

=== FILE: outcomes.dfy ===
/** Optional values and the outcome of a call into a service this model does not contain
    (the analysis API, the chat API, the identity provider). Every network or SDK call of the
    application becomes a parameter of one of these types, so each handler is a pure function
    of its inputs and of whatever the outside world answered. */
module Outcomes {

  /** `T | null` / `T | undefined` in the application's TypeScript. */
  datatype Option<+T> = None | Some(value: T)

  /** A settled promise: resolved with a value or rejected with an error. */
  datatype Outcome<+T, +E> = Ok(value: T) | Err(error: E)

  /** The rejection of a call whose error the application never inspects. */
  datatype Fault = Fault
}

=== FILE: signup_page.dfy ===
/** The registration form (frontend/components/auth/SignupPage.tsx): its local pre-validation
    (both fields present, then a password of at least six UTF-16 code units), the
    `isSubmitting` flag, and the classification of a caught error's `code`.

    The `signup` call is a parameter, as for the sign-in form. */
module SignupPage {
  import opened Outcomes
  import opened Strings
  import AuthContext

  datatype SignupForm = SignupForm(email: string, password: string, error: string, isSubmitting: bool)

  const Initial: SignupForm := SignupForm("", "", "", false)

  /** The shortest password the form sends, in UTF-16 code units (`password.length`). */
  const MinPasswordLength: nat := 6

  const MissingFieldsText: string := "Please enter both email and password."
  const TooShortText: string := "Password must be at least 6 characters long."
  const DefaultText: string := "Sign up failed. Please try again."
  const EmailInUseText: string := "This email address is already registered."
  const InvalidEmailText: string := "The email address is not valid."
  const WeakPasswordText: string := "The password is too weak. Must be at least 6 characters."

  /** The codes the form classifies are the three `signup` itself maps. */
  const KnownCodes: set<string> := AuthContext.SignupCodes

  /** The error set for a caught error: one per known code, and the default exactly when
      the code is missing or unknown. */
  function ErrorText(code: Option<string>): (msg: string)
    ensures code == Some("auth/email-already-in-use") ==> msg == EmailInUseText
    ensures code == Some("auth/invalid-email") ==> msg == InvalidEmailText
    ensures code == Some("auth/weak-password") ==> msg == WeakPasswordText
    ensures msg == DefaultText <==> code.None? || code.value !in KnownCodes
  {
    if code == Some("auth/email-already-in-use") then EmailInUseText
    else if code == Some("auth/invalid-email") then InvalidEmailText
    else if code == Some("auth/weak-password") then WeakPasswordText
    else DefaultText
  }

  /** The local check, in the order the form makes it: `None` when the form may be sent. */
  function Validate(f: SignupForm): (r: Option<string>)
    ensures r == Some(MissingFieldsText) <==> f.isSubmitting || f.email == "" || f.password == ""
    ensures r == Some(TooShortText) <==>
      !f.isSubmitting && f.email != "" && f.password != "" && Utf16Length(f.password) < MinPasswordLength
    ensures r.None? <==>
      !f.isSubmitting && f.email != "" && Utf16Length(f.password) >= MinPasswordLength
  {
    if f.isSubmitting || f.email == "" || f.password == "" then Some(MissingFieldsText)
    else if Utf16Length(f.password) < MinPasswordLength then Some(TooShortText)
    else None
  }

  datatype Submit =
    | Rejected(form: SignupForm)
    | Attempted(submitting: SignupForm, email: string, password: string, settled: SignupForm)

  /** `handleSubmit`: a form failing the local check shows that check's message and calls
      nothing; otherwise as for the sign-in form, with `isSubmitting` raised only once the
      checks have passed. */
  function HandleSubmit(f: SignupForm, outcome: Outcome<(), Option<string>>): (r: Submit)
    ensures r.Rejected? <==> Validate(f).Some?
    ensures r.Rejected? ==> r.form == f.(error := Validate(f).value) && r.form.isSubmitting == f.isSubmitting
    ensures r.Attempted? ==>
      && r.submitting == f.(error := "", isSubmitting := true)
      && r.email == f.email && r.password == f.password
      && Utf16Length(r.password) >= MinPasswordLength
    ensures r.Attempted? ==>
      && r.settled.email == f.email && r.settled.password == f.password
      && !r.settled.isSubmitting
      && (outcome.Ok? ==> r.settled.error == "")
      && (outcome.Err? ==> r.settled.error == ErrorText(outcome.error))
  {
    match Validate(f)
    case Some(msg) => Rejected(f.(error := msg))
    case None =>
      var submitting := f.(error := "", isSubmitting := true);
      var error := match outcome
        case Ok(_) => ""
        case Err(code) => ErrorText(code);
      Attempted(submitting, f.email, f.password, submitting.(error := error, isSubmitting := false))
  }

  /** An empty password is reported as a missing field, not as too short; a password of five
      code units is refused locally, and six plain letters are long enough. */
  lemma ValidationOrder(email: string)
    requires email != ""
    ensures Validate(SignupForm(email, "", "", false)) == Some(MissingFieldsText)
    ensures Validate(SignupForm(email, "abcde", "", false)) == Some(TooShortText)
    ensures Validate(SignupForm(email, "abcdef", "", false)).None?
  {
  }

  /** The form wired to the session provider: the provider's outcome reaches the form through
      `AuthContext.Signup`. The local check is unchanged; an attempt settles with no error when
      the provider accepts and with the default message whenever it rejects. */
  function SubmitThroughProvider(f: SignupForm, s: AuthContext.AuthState, outcome: Outcome<(), AuthContext.ProviderError>): (r: Submit)
    ensures r.Rejected? <==> Validate(f).Some?
    ensures r.Attempted? ==> r.submitting == f.(error := "", isSubmitting := true)
    ensures r.Attempted? ==>
      && !r.settled.isSubmitting
      && r.settled.error == (if outcome.Ok? then "" else DefaultText)
  {
    var thrown := AuthContext.Signup(s, outcome).thrown;
    HandleSubmit(f, if thrown.Some? then Err(AuthContext.CodeOf(thrown.value)) else Ok(()))
  }

  /** Wired to the session provider, every provider rejection, whatever its code, sets the
      form's error to the default message: the rethrown error carries no code. */
  lemma ProviderRejectionSetsDefault(f: SignupForm, s: AuthContext.AuthState, e: AuthContext.ProviderError)
    requires Validate(f).None?
    ensures SubmitThroughProvider(f, s, Err(e)).Attempted?
    ensures SubmitThroughProvider(f, s, Err(e)).settled.error == DefaultText
  {
  }
}

=== FILE: strings.dfy ===
/** The JavaScript string operations the application relies on, over strings of Unicode
    scalar values: `split` on a one-character separator, `join`, `trim`, `startsWith` (written
    as Dafny's prefix test `p <= s`) and `length`, which counts UTF-16 code units. */
module Strings {

  /** `parts.join(sep)`: the parts with `sep` between neighbours; `[].join(sep)` is "". */
  function Join(parts: seq<string>, sep: string): string
  {
    if |parts| == 0 then ""
    else if |parts| == 1 then parts[0]
    else parts[0] + sep + Join(parts[1..], sep)
  }

  /** The sum of the parts' lengths. */
  function TotalLength(parts: seq<string>): nat
  {
    if |parts| == 0 then 0 else |parts[0]| + TotalLength(parts[1..])
  }

  /** The joined text starts with the first part and ends with the last, and its length is
      the parts' lengths plus one separator between each neighbouring pair. */
  lemma {:induction false} JoinShape(parts: seq<string>, sep: string)
    requires |parts| >= 1
    ensures parts[0] <= Join(parts, sep)
    ensures var last := parts[|parts| - 1]; var r := Join(parts, sep);
      |last| <= |r| && r[|r| - |last|..] == last
    ensures |Join(parts, sep)| == TotalLength(parts) + (|parts| - 1) * |sep|
    decreases |parts|
  {
    if |parts| > 1 {
      JoinShape(parts[1..], sep);
      var rest := Join(parts[1..], sep);
      assert Join(parts, sep) == parts[0] + sep + rest;
      assert parts[1..][|parts| - 2] == parts[|parts| - 1];
    }
  }

  /** `s.split(c)` for a one-character separator `c`: the maximal runs of `s` between
      occurrences of `c`. There is always at least one segment, no segment contains `c`,
      and joining the segments with `c` gives `s` back. */
  function Split(s: string, c: char): (r: seq<string>)
    ensures |r| >= 1
    ensures forall i :: 0 <= i < |r| ==> c !in r[i]
    ensures Join(r, [c]) == s
    decreases |s|
  {
    if |s| == 0 then [""]
    else
      var rest := Split(s[1..], c);
      if s[0] == c then [""] + rest
      else
        assert s == [s[0]] + s[1..];
        JoinExtendsFirst([s[0]], rest, [c]);
        [[s[0]] + rest[0]] + rest[1..]
  }

  /** Joining after extending the first part equals extending the joined text. */
  lemma JoinExtendsFirst(x: string, parts: seq<string>, sep: string)
    requires |parts| >= 1
    ensures Join([x + parts[0]] + parts[1..], sep) == x + Join(parts, sep)
  {
  }

  /** Splitting a string with no separator in front of it extends the first segment only. */
  lemma {:induction false} SplitAfterPlainText(w: string, s: string, c: char)
    requires c !in w
    ensures Split(w + s, c) == [w + Split(s, c)[0]] + Split(s, c)[1..]
    decreases |w|
  {
    if |w| == 0 {
      assert w + s == s;
      assert w + Split(s, c)[0] == Split(s, c)[0];
      assert Split(s, c) == [Split(s, c)[0]] + Split(s, c)[1..];
    } else {
      assert (w + s)[1..] == w[1..] + s;
      SplitAfterPlainText(w[1..], s, c);
      assert [w[0]] + (w[1..] + Split(s, c)[0]) == w + Split(s, c)[0];
    }
  }

  /** Split inverts Join: parts joined with `c`, none containing `c`, split back into the
      same parts. */
  lemma {:induction false} SplitJoin(parts: seq<string>, c: char)
    requires |parts| >= 1
    requires forall i :: 0 <= i < |parts| ==> c !in parts[i]
    ensures Split(Join(parts, [c]), c) == parts
    decreases |parts|
  {
    if |parts| == 1 {
      SplitAfterPlainText(parts[0], "", c);
      assert parts[0] + "" == parts[0];
    } else {
      var tail := Join(parts[1..], [c]);
      SplitJoin(parts[1..], c);
      assert Split([c] + tail, c) == [""] + parts[1..] by {
        assert ([c] + tail)[1..] == tail;
      }
      assert Join(parts, [c]) == parts[0] + ([c] + tail);
      SplitAfterPlainText(parts[0], [c] + tail, c);
      assert parts[0] + "" == parts[0];
      assert parts == [parts[0]] + parts[1..];
    }
  }

  /** The first segment of a split is the text before the first separator: a prefix of `s`,
      and either all of `s` or followed in `s` by the separator. */
  lemma SplitFirstSegment(s: string, c: char)
    ensures Split(s, c)[0] <= s
    ensures |Split(s, c)| == 1 <==> c !in s
    ensures c in s ==> s[|Split(s, c)[0]|] == c
  {
  }

  /** The characters `String.prototype.trim` removes: ECMAScript WhiteSpace and
      LineTerminator code points. */
  predicate IsJsWhitespace(ch: char)
  {
    var n := ch as int;
    n == 0x09 || n == 0x0A || n == 0x0B || n == 0x0C || n == 0x0D || n == 0x20
    || n == 0xA0 || n == 0x1680 || (0x2000 <= n <= 0x200A) || n == 0x2028 || n == 0x2029
    || n == 0x202F || n == 0x205F || n == 0x3000 || n == 0xFEFF
  }

  predicate AllWhitespace(s: string)
  {
    forall i :: 0 <= i < |s| ==> IsJsWhitespace(s[i])
  }

  /** Where `s.trimStart()` begins when looking from index `i`: the first position at or
      after `i` that is not whitespace, or the end of `s`. */
  function FirstNonWhitespace(s: string, i: nat): (k: nat)
    requires i <= |s|
    ensures i <= k <= |s|
    ensures forall m :: i <= m < k ==> IsJsWhitespace(s[m])
    ensures k < |s| ==> !IsJsWhitespace(s[k])
    decreases |s| - i
  {
    if i < |s| && IsJsWhitespace(s[i]) then FirstNonWhitespace(s, i + 1) else i
  }

  /** Where `s.trimEnd()` ends when looking down from index `j` to `lo`: just past the last
      position below `j` that is not whitespace, or `lo`. */
  function EndOfNonWhitespace(s: string, lo: nat, j: nat): (k: nat)
    requires lo <= j <= |s|
    ensures lo <= k <= j
    ensures forall m :: k <= m < j ==> IsJsWhitespace(s[m])
    ensures k > lo ==> !IsJsWhitespace(s[k - 1])
    decreases j
  {
    if j > lo && IsJsWhitespace(s[j - 1]) then EndOfNonWhitespace(s, lo, j - 1) else j
  }

  /** `s.trim()`: the slice `s[i..j]` with only whitespace before `i` and from `j` on,
      neither end of which is whitespace; so it is empty exactly when every character of `s`
      is whitespace (the test `!s.trim()`). */
  function Trim(s: string): (r: string)
    ensures var i := FirstNonWhitespace(s, 0); var j := EndOfNonWhitespace(s, i, |s|);
      && r == s[i..j]
      && (forall m :: 0 <= m < i ==> IsJsWhitespace(s[m]))
      && (forall m :: j <= m < |s| ==> IsJsWhitespace(s[m]))
    ensures |r| > 0 ==> !IsJsWhitespace(r[0]) && !IsJsWhitespace(r[|r| - 1])
    ensures r == "" <==> AllWhitespace(s)
  {
    var i := FirstNonWhitespace(s, 0);
    var j := EndOfNonWhitespace(s, i, |s|);
    assert i < j ==> s[i..j][0] == s[i] && s[i..j][j - i - 1] == s[j - 1];
    s[i..j]
  }

  /** `s.length`: UTF-16 code units, two for a character outside the Basic Multilingual Plane. */
  function Utf16Length(s: string): (n: nat)
    ensures |s| <= n <= 2 * |s|
    ensures n == |s| <==> forall i :: 0 <= i < |s| ==> (s[i] as int) < 0x10000
    decreases |s|
  {
    if |s| == 0 then 0
    else (if (s[0] as int) < 0x10000 then 1 else 2) + Utf16Length(s[1..])
  }
}
